=== FILE: README.md ===
# Kubernetes client utilities of aws-k8s-tester, in Dafny

This project models the `client` package of aws-k8s-tester: the layer every
tester uses to reach a Kubernetes API server. The package

- resolves a `rest.Config` through a chain of strategies: an explicit
  kubeconfig, then a previously recorded EKS cluster identity, then the
  in-cluster config, then the client defaults;
- reconciles the caller's EKS hint (region, cluster name, API server
  endpoint, CA) against the config that won. Empty hints are filled. A
  conflicting hint is kept, with a warning;
- applies the caller's QPS, burst and timeout overrides;
- builds `Clients` Kubernetes and API-extensions client sets and hands them
  out round-robin through one shared cursor;
- registers the `eks` auth provider. Its tokens are `k8s-aws-v1.` followed
  by the unpadded base64url encoding of a presigned STS `GetCallerIdentity`
  request. The token is valid for 14 minutes. The argument `Presign`
  receives is the `time.Duration` 60, which is 60 nanoseconds. The model
  records that value and leaves open what the signer makes of it;
- decides, attempt by attempt, whether a call under exponential backoff is
  done, should be retried, or failed terminally. The built-in classifiers
  go first, then the caller's allow and retry predicates.

Every operation is a pure function over immutable datatypes:

- The caller's `*Config` is updated in place by the source. The model
  returns the updated `Config` instead, with the log lines as a list of
  `Note`s.
- The pool's mutable cursor becomes a state value. Each accessor returns
  the next state.
- Library calls become parameters: kubeconfig loading, in-cluster config,
  the default config, `NewForConfig` and the STS presigner.
- The clock is a parameter too: the mint instant `now`.

Modules, one per component: `Wrappers` (Option/Result), `Errors`
(classifiers), `Retry` (options and the per-attempt decision), `Base64Url`
(RFC 4648 section 5 alphabet, no padding), `Auth` (provider factory and
token format), `ClientConfig` (records), `Resolve` (strategy chain,
reconciliation, overrides), `Client` (pool and `New`).

`createRestConfig` never checks the resolved `Host`. Only the EKS hint's
endpoint is checked, after reconciliation:

- when no hint is given, nothing is checked at all;
- a non-empty conflicting hint is kept while the config's empty `Host` is
  used.

`Resolve.HostMayBeEmpty` states this.

## Model

| member | source | states |
|---|---|---|
| `Client.KubernetesClient` | client/client.go:117-127 | On an empty slice the result is nil and the state is unchanged. Otherwise only the cursor moves, to `(cur+1) % len`, which stays inside the slice. The handle returned is the one under the new cursor. A valid pool stays valid. |
| `Client.APIExtensionsClient` | client/client.go:129-139 | The same step over the extension slice, moving the same `cur` field. |
| `Client.CallsRoundRobin` | client/client.go:114-139 | For any interleaving of the two accessors on a valid pool, call `j` returns position `(cur + j + 1) % n` of the slice it reads. The cursor ends `|calls|` steps on. The slices and the config never change. |
| `Client.CallReturns` | client/client.go:117-139 | The handle a single call in a sequence returns, read off the shared cursor. |
| `Client.CallsPeriodic` | client/client.go:117-139 | Two calls `n` apart that use the same accessor return the same handle: period `n`. |
| `Client.ConfigUnchangedByCalls` | client/client.go:117-141 | `Config()` returns the same config after any sequence of accessor calls. |
| `Client.GetConfig` | client/client.go:141 | `Config()` returns the config `New` stored. `New`'s contract states that config: the caller's config with `Clients` clamped and the EKS hint reconciled. |
| `Client.FreshPoolStartsAtOne` | client/client.go:179-183 | From the cursor `New` leaves (0), call `j` returns position `(j+1) % n`: 1, 2, ..., n-1, 0, ... |
| `Client.NormalizeClients` | client/client.go:145-147 | `Clients < 1` becomes 1. Any other value is kept, and so are all other fields. |
| `Client.New` | client/client.go:144-195 | A resolution failure is returned as is. On success, each slice holds exactly the normalised `Clients` handles, the `i`-th from the `i`-th `NewForConfig` call, and the cursor is 0. `Config()` returns the config resolution updated. `New` succeeds iff every construction succeeds. On failure it reports the first failing index with that call's error. |
| `ClientConfig.MessagesDistinct` | client/client.go:230-362 | The resolution errors (`failed to create config`, `empty ClusterAPIServerEndpoint`, `empty KUBECONFIG`, ...) each have their own message text. |
| `Resolve.FromKubeconfig` | client/client.go:307-345 | An empty path fails at once with "empty KUBECONFIG". A non-empty context selects the context loader, otherwise `BuildConfigFromFlags` is used. A failed load gives "failed to create config from KUBECONFIG". |
| `Resolve.FromEKS` | client/client.go:347-378 | A nil hint fails. Empty fields fail, checked in the order region, cluster name, endpoint, CA, each with its own error. Success holds iff the hint is complete. The config built then has `Host` = endpoint, `CAData` = CA, and an `eks` provider whose map holds exactly `region` and `cluster-name` with the hint's values. |
| `Resolve.BaseConfig` | client/client.go:198-231 | The chain yields no config iff kubeconfig fails, the EKS hint is absent or fails, and both the in-cluster and default configs are absent. A kubeconfig success always wins. With no path and no hint, the in-cluster config is used, else the defaults. |
| `Resolve.BaseConfigIsFirstSuccess` | client/client.go:198-231 | The chain picks the first successful strategy in the order kubeconfig, EKS (only when a hint is given), in-cluster, defaults. |
| `Resolve.ReconcileField` | client/client.go:234-242 | An empty hint takes the resolved value and logs a fill. A non-empty hint is kept. It logs a conflict with both values when they differ and nothing when they agree. |
| `Resolve.Reconcile` | client/client.go:233-286 | Fails, with "empty ClusterAPIServerEndpoint", iff both the endpoint hint and `Host` are empty. Otherwise no non-empty hint is overwritten and every empty hint the config can answer is filled from it. Region and cluster name are left alone when the config names no auth provider. |
| `Resolve.ProviderField` | client/client.go:260-279 | Region and cluster name follow the field rule against the provider's `region` and `cluster-name` parameters only when the config names an auth provider. A missing key reads as empty. Without a provider the hint is kept and nothing is logged. |
| `Resolve.NotesReflectFields` | client/client.go:233-285 | An empty endpoint or CA hint is logged as filled, with the value it took, and only then. An empty region or cluster name hint is logged as filled, with the value it took, exactly when the config names an auth provider. A CA, region or cluster name still empty at the end is warned about, and only then. An empty endpoint is never only warned about. |
| `Resolve.DisagreementsAreWarned` | client/client.go:237-277 | Whenever a reconciled field differs from the resolved value, a conflict note with both values was recorded. |
| `Resolve.ConflictsAreGenuine` | client/client.go:237-277 | Every conflict note is a real disagreement. It carries the caller's non-empty hint for its field and the different resolved value. For region and cluster name it appears only when the config names an auth provider. |
| `Resolve.ReconcileIdempotent` | client/client.go:233-286 | Reconciling the reconciled hint against the same config yields the same hint. |
| `Resolve.ApplyOverrides` | client/client.go:288-296 | QPS, burst and timeout take the caller's value only when it is greater than 0 and keep the resolved value otherwise. Host, CA and auth provider are untouched. |
| `Resolve.ApplyOverridesIdempotent` | client/client.go:288-296 | Applying the overrides to an already overridden config changes nothing. |
| `Resolve.CreateRestConfig` | client/client.go:198-305 | With no base config the result is "failed to create config". The only other possible error is the empty-endpoint error. On success the config to build from is the chain's config with the overrides applied. Success changes only the `EKS` field of the caller's config, and never adds or removes a hint. A returned hint has a non-empty endpoint, keeps every non-empty field of the caller's hint and fills every empty one the chain's config can answer. Without a hint nothing is logged. |
| `Resolve.AllStrategiesFailIff` | client/client.go:198-231 | Resolution fails with "failed to create config" exactly when every strategy fails. |
| `Resolve.ResolvedFromFirstSuccess` | client/client.go:198-296 | When some strategy succeeds, the result is the first success's config with the overrides applied. It fails iff a hint is given whose endpoint and the config's `Host` are both empty. With a hint, the returned hint and notes are exactly those of reconciling the hint against the first success. So the notes reflect the fields filled and still missing, and every conflict note is a real disagreement. |
| `Resolve.EmptyPathSkipsLoaders` | client/client.go:307-310 | With an empty kubeconfig path the result does not depend on the kubeconfig loaders. |
| `Resolve.EKSWinsReconcileNoOp` | client/client.go:199-286 | When kubeconfig fails and the EKS hint succeeds, reconciliation changes nothing and logs nothing. The config points at the hint's endpoint and CA. |
| `Resolve.EKSProviderAccepted` | client/client.go:370-397 | The provider config the EKS strategy writes is always accepted by `newAuthProviderEKS`, giving a token source for the hint's region and cluster. |
| `Resolve.HostMayBeEmpty` | client/client.go:233-245 | A resolved config with an empty `Host` is returned when no hint is given, or when a non-empty but incomplete hint keeps its endpoint. |
| `Auth.NewAuthProviderEKS` | client/client.go:386-397 | Succeeds iff both the `region` and `cluster-name` keys are present, whatever their values. `region` is checked first. On success the token source carries exactly the two values. |
| `Auth.IdentityRequest` | client/client.go:433-437 | The request to presign is for the STS client of the session's region. It carries the `x-k8s-aws-id` header set to the cluster name, and the expiry argument `Presign(60)`, a `time.Duration` of 60 ns. |
| `Auth.IdentityRequestBindsCluster` | client/client.go:433-437 | Two token sources ask the signer for the same request iff they name the same cluster and their sessions are for the same region. |
| `Auth.MintToken` | client/client.go:432-448 | A presign error is returned unchanged. Otherwise the token type is `Bearer` and the expiry is `now` + 14 minutes. The access token starts with `k8s-aws-v1.`, and what follows decodes back to the presigned payload. The decoder is canonical, so this fixes the token (see `Auth.TokenIsCanonical`). |
| `Auth.TokenIsCanonical` | client/client.go:440-441 | Any string that starts with `k8s-aws-v1.` and whose rest decodes to the presigned payload is exactly the minted access token. |
| `Auth.TokenBodyIsUnpaddedBase64Url` | client/client.go:441 | After the prefix the token holds exactly `EncodedLen(payload)` characters, all from the base64url alphabet, none of them `=`. |
| `Base64Url.Encode` | client/client.go:441 | Output length is `(8n+5)/6`, as `RawURLEncoding.EncodedLen`. Every character is in the RFC 4648 section 5 alphabet. |
| `Base64Url.DecodeEncode` | client/client.go:441 | Decoding the unpadded base64url encoding gives back the bytes. |
| `Base64Url.EncodeDecode` | client/client.go:441 | A string the canonical decoder accepts is the encoding of what it decodes to. The decoder rejects non-zero unused trailing bits (section 3.5 of RFC 4648). |
| `Base64Url.DecodeIffEncode` | client/client.go:441 | A string decodes to `b` iff it is the encoding of `b`. |
| `Base64Url.EncodeInjective` | client/client.go:441 | Distinct payloads give distinct encodings. |
| `Errors.IsRetryableAPIError` | client/client.go:488-504 | An error is retryable iff it shows one of the transient indications: internal, timeout, server timeout, too many requests, probable EOF, connection reset, resource-quota conflict, unauthorized, retry-after hint. |
| `Errors.IsResourceQuotaConflictError` | client/client.go:506-515 | The carve-out holds only for an API status whose reason is Conflict and that has details. It holds exactly when the error shows the resource-quota conflict indication. |
| `Errors.ConflictRetryableOnlyForResourceQuotas` | client/client.go:488-515 | A Conflict status with details and no other indication (no apimachinery predicate fires, no retry-after hint) is retryable by the API classifier iff the details' kind is `resourcequotas`. |
| `Errors.ConflictWithoutDetailsNotRetryable` | client/client.go:514 | A Conflict status without details is not the quota carve-out. |
| `Errors.NotFoundNotRetryable` | client/client.go:488-523 | Every error with a NotFound status, no other indication and no `net.Error` is terminal for both built-in classifiers. |
| `Errors.IsRetryableNetError` | client/client.go:517-523 | Retryable as a net error iff the error is a `net.Error` reporting `Temporary()` or `Timeout()`. |
| `Retry.RetryBackoffValid` | client/client.go:462-467 | The schedule is valid: 100ms first delay, factor 3 (> 1), jitter 0, 6 steps (>= 1). |
| `Retry.Allow` | client/client.go:533-535 | Sets only the allow predicate. |
| `Retry.Retry` | client/client.go:538-540 | Sets only the retry predicate. |
| `Retry.AnyMatch` | client/client.go:561-570 | Scanning a predicate list finds a match iff some predicate in it holds of the error. |
| `Retry.AllowPredicatesSound` | client/client.go:544-552 | The list `Retry.AllowPredicates` collects (the non-nil allow predicates, in option order) matches an error iff some option's non-nil allow predicate holds of it. |
| `Retry.RetryPredicatesSound` | client/client.go:544-552 | The same for the list `Retry.RetryPredicates` collects from the retry predicates. |
| `Retry.Decide` | client/client.go:553-572 | For one attempt's outcome and the predicate lists in scan order: a nil error means done. An error is reported only when the attempt is not done, and only the attempt's own error. The attempt is done iff the error is nil, or is not transient and some allow predicate matches. It backs off without an error iff the error is transient, or no allow predicate and some retry predicate matches. |
| `Retry.RetryFunction` | client/client.go:543-572 | The decision, in priority order. A nil error gives `(true, nil)`. A built-in retryable error gives `(false, nil)`, whatever the allow predicates say. Else an allowed error gives `(true, nil)`, with the error discarded. Else a retried error gives `(false, nil)`. Otherwise the result is `(false, err)` with the error unchanged. |
| `Retry.DecisionShape` | client/client.go:553-572 | Any error reported is the attempt's own error and comes with `done = false`. A nil error always means done. |
| `Retry.NilOptionsInert` | client/client.go:545-551 | An option with both predicates nil, inserted anywhere, changes no decision. |
| `Retry.BuiltinBeatsAllow` | client/client.go:558-565 | A built-in retryable error keeps backing off even when an allow predicate matches it. |
| `Retry.AllowDiscardsError` | client/client.go:561-564 | A matching allow predicate on a non-transient error reports success, with the error discarded. |

## Left out

- The file-system and download steps of `New` (client/client.go:148-172) are I/O. These are `MkdirAll`, the existence check, the kubectl download and `EnsureExecutable`. The kubectl fields of `Config` are left out with them.
- The logger is left out. Log lines that carry meaning become `Resolve.Note` values. The "successfully created config" line and the error logs of the chain carry none.
- Library loaders are opaque parameters of `Resolve.Environment`. They are `BuildConfigFromFlags`, the deferred-loading client config with the context override, `InClusterConfig` and `DefaultClientConfig`. How they read files is not modelled.
- `NewForConfig` is an opaque, fallible function of the config and the call's index. What a client set is stays opaque (type parameters `K`, `E`).
- Only the pool's `cur` field is modelled. The `sync.Mutex` is not, because each accessor's critical section is one cursor step. Concurrent interleavings are not modelled.
- The AWS session is left out: `session.Must(session.NewSession(...))`, including its panic. Only its region is kept.
- STS `Presign` is a fallible parameter returning the bytes of the presigned URL. `GetCallerIdentityRequest` is reduced to the session's region, the header it carries and the expiry argument (60 ns). The session's credentials are not modelled. How long the signed URL stays valid is decided by the signer and STS, and is not modelled.
- `WrapTransport` (the `oauth2.Transport` wrapping) is a library decorator and is left out. `Login` always returns nil and is left out too.
- Process-wide registration of the provider under `eks` (`init`, client/client.go:382-384) is ambient global state. The model calls the factory directly.
- `time.Now().Local()` is the parameter `now`. Instants are nanoseconds and the time zone is ignored.
- `ClientQPS`/`QPS` are `float32` in the source and `real` here. Only the `> 0` test is used.
- Durations are unbounded `int` nanoseconds. The `int64` range of `time.Duration` is not enforced.
- `RetryWithExponentialBackOff` delegates to `wait.ExponentialBackoff` (client/client.go:478-486). That library driver (sleeping, step counting, the timeout error) is not part of this model. Only its parameters are recorded, as `Retry.RetryBackoff`.
- The option list holds non-nil options. A nil `*ApiCallOptions` makes the source panic, which is not modelled.
- The caller's predicates are pure functions. Side effects of a Go predicate, and which predicate ran first, are not observable here. The model stops at "some predicate matched".
- The apimachinery predicates (`IsInternalError`, `IsTimeout`, `IsServerTimeout`, `IsTooManyRequests`, `IsUnauthorized`, `SuggestsClientDelay`) and the net utilities (`IsProbableEOF`, `IsConnectionReset`) are library code. The `Errors.Error` record takes their answers as given flags.
- `deleteOption` and the namespace poll and deletion constants (client/client.go:453-475) are used only by callers outside this package.
- eks/jobs/jobs.go and the cloudwatch-agent command are orchestration and CLI wiring built on this package. They are not part of this model.
- Client.New: when a `NewForConfig` call fails, the model returns only `HandleFailed`. By then the source has already changed the caller's `*Config`: `Clients` is clamped and the EKS hint is reconciled. The model does not return that updated config with the error. Callers that read the config after a failed `New` are not modelled.
- Resolve.Reconcile: on the empty-endpoint failure the model returns only the error. The source has already logged "updated apiserver endpoint" with the empty `Host` by then. The model does not return that note.
- Retry.RetryFunction: the attempt `f` is modelled as a pure function, so the returned condition stands for a single attempt and gives the same decision on every call. In the source each call of the condition runs `f()` again, and a changing outcome is what the backoff waits for. `Retry.Decide` gives the decision for each attempt's own outcome.

=== FILE: auth.dfy ===
/** The `eks` auth-provider plugin and its token source: a factory that reads
    the provider's parameter map, and the bearer-token format
    `k8s-aws-v1.` + unpadded base64url of a presigned STS
    `GetCallerIdentity` request. */
module Auth {
  import opened Wrappers
  import opened Base64Url

  /** The name the plugin is registered under. */
  const AuthProviderName: string := "eks"
  const RegionKey: string := "region"
  const ClusterNameKey: string := "cluster-name"

  /** The token prefix and the header that binds a token to one cluster. */
  const V1Prefix: string := "k8s-aws-v1."
  const ClusterIDHeader: string := "x-k8s-aws-id"
  /** The argument handed to `Presign`: the untyped constant 60 as a
      `time.Duration`, that is 60 ns. */
  const PresignExpiry: int := 60
  /** Instants and durations are nanoseconds, as Go's `time.Duration`. */
  const Minute: int := 60 * 1_000_000_000
  const TokenLifetime: int := 14 * Minute
  const BearerTokenType: string := "Bearer"

  /** `eksTokenSource`: the AWS session is reduced to the region it was
      opened for. */
  datatype TokenSource = TokenSource(sessionRegion: string, clusterName: string)

  /** `eksAuthProvider`. */
  datatype EksAuthProvider = EksAuthProvider(ts: TokenSource)

  /** The factory's errors; each carries the offending map, as the message does. */
  datatype AuthError =
    | MissingRegionKey(config: map<string, string>)
    | MissingClusterNameKey(config: map<string, string>)

  /** `newAuthProviderEKS`: requires the `region` and `cluster-name` keys to
      be present (an empty value is accepted), `region` checked first. */
  function NewAuthProviderEKS(config: map<string, string>): (r: Result<EksAuthProvider, AuthError>)
    ensures r.Success? <==> RegionKey in config && ClusterNameKey in config
    ensures r.Success? ==> r.value.ts == TokenSource(config[RegionKey], config[ClusterNameKey])
    ensures RegionKey !in config ==> r == Failure(MissingRegionKey(config))
    ensures RegionKey in config && ClusterNameKey !in config ==> r == Failure(MissingClusterNameKey(config))
  {
    if RegionKey !in config then Failure(MissingRegionKey(config))
    else
      var awsRegion := config[RegionKey];
      if ClusterNameKey !in config then Failure(MissingClusterNameKey(config))
      else
        var clusterName := config[ClusterNameKey];
        Success(EksAuthProvider(TokenSource(awsRegion, clusterName)))
  }

  /** The request handed to the signer: `GetCallerIdentity` on an STS
      client built from the token source's session, so for the session's
      region; the cluster-id header; and the expiry duration (nanoseconds)
      passed to `Presign`. */
  datatype PresignRequest = PresignRequest(region: string, headerName: string, headerValue: string, expiry: int)

  /** `oauth2.Token`: access token, type and absolute expiry instant. */
  datatype Token = Token(accessToken: string, tokenType: string, expiry: int)

  /** The request binds the token to one cluster: the cluster-id header
      carries the cluster name, the STS client is the session's region's,
      and the expiry is the fixed `PresignExpiry`. */
  function IdentityRequest(ts: TokenSource): (req: PresignRequest)
    ensures req.region == ts.sessionRegion
    ensures req.headerName == ClusterIDHeader && req.headerValue == ts.clusterName
    ensures req.expiry == PresignExpiry
  {
    PresignRequest(ts.sessionRegion, ClusterIDHeader, ts.clusterName, PresignExpiry)
  }

  /** Two token sources ask the signer for the same request iff they name
      the same cluster through sessions for the same region. */
  lemma IdentityRequestBindsCluster(ts1: TokenSource, ts2: TokenSource)
    ensures IdentityRequest(ts1) == IdentityRequest(ts2)
            <==> ts1.clusterName == ts2.clusterName && ts1.sessionRegion == ts2.sessionRegion
  {
  }

  /** `eksTokenSource.Token`. `presign` is the signer, fallible and opaque,
      returning the bytes of the presigned URL; `now` is the mint instant. */
  function MintToken<E>(ts: TokenSource, presign: PresignRequest -> Result<seq<byte>, E>, now: int): (r: Result<Token, E>)
    ensures presign(IdentityRequest(ts)).Failure? ==> r == Failure(presign(IdentityRequest(ts)).error)
    ensures presign(IdentityRequest(ts)).Success? ==> r.Success?
    ensures r.Success? ==>
              && r.value.tokenType == BearerTokenType
              && r.value.expiry == now + TokenLifetime
              && |r.value.accessToken| >= |V1Prefix|
              && r.value.accessToken[..|V1Prefix|] == V1Prefix
              && Decode(r.value.accessToken[|V1Prefix|..]) == Some(presign(IdentityRequest(ts)).value)
  {
    var payload :- presign(IdentityRequest(ts));
    var encoded := Encode(payload);
    DecodeEncode(payload);
    var token := V1Prefix + encoded;
    assert token[..|V1Prefix|] == V1Prefix && token[|V1Prefix|..] == encoded;
    Success(Token(token, BearerTokenType, now + TokenLifetime))
  }

  /** After the prefix, a token holds only base64url characters and no
      padding, exactly `EncodedLen` of them for the payload. */
  lemma TokenBodyIsUnpaddedBase64Url<E>(ts: TokenSource, presign: PresignRequest -> Result<seq<byte>, E>, now: int)
    requires presign(IdentityRequest(ts)).Success?
    ensures var t := MintToken(ts, presign, now).value.accessToken;
            && |t| == |V1Prefix| + EncodedLen(|presign(IdentityRequest(ts)).value|)
            && forall k :: |V1Prefix| <= k < |t| ==> InAlphabet(t[k]) && t[k] != '='
  {
    var t := MintToken(ts, presign, now).value.accessToken;
    var encoded := Encode(presign(IdentityRequest(ts)).value);
    assert t == V1Prefix + encoded;
    forall k | |V1Prefix| <= k < |t| ensures InAlphabet(t[k]) && t[k] != '=' {
      assert t[k] == encoded[k - |V1Prefix|];
    }
  }

  /** The token is pinned: any string with the prefix whose body decodes to
      the presigned payload is exactly the minted access token. */
  lemma TokenIsCanonical<E>(ts: TokenSource, presign: PresignRequest -> Result<seq<byte>, E>, now: int, t: string)
    requires presign(IdentityRequest(ts)).Success?
    requires |t| >= |V1Prefix| && t[..|V1Prefix|] == V1Prefix
    requires Decode(t[|V1Prefix|..]) == Some(presign(IdentityRequest(ts)).value)
    ensures t == MintToken(ts, presign, now).value.accessToken
  {
    var payload := presign(IdentityRequest(ts)).value;
    DecodeIffEncode(t[|V1Prefix|..], payload);
    assert t == t[..|V1Prefix|] + t[|V1Prefix|..];
  }
}

=== FILE: base64url.dfy ===
/** Unpadded base64url (the "base64url" alphabet of section 5 of RFC 4648,
    written without `=` padding), the encoding Go's `base64.RawURLEncoding`
    applies to the presigned request inside an EKS bearer token. */
module Base64Url {
  import opened Wrappers

  type byte = x: int | 0 <= x < 256

  /** A 6-bit value, the index of one alphabet character. */
  type sextet = x: int | 0 <= x < 64

  /** The character for value `i` in Table 2 of RFC 4648:
      `A`-`Z`, `a`-`z`, `0`-`9`, then `-` and `_`. */
  function CharOf(i: sextet): char {
    if i < 26 then (65 + i) as char
    else if i < 52 then (97 + i - 26) as char
    else if i < 62 then (48 + i - 52) as char
    else if i == 62 then '-'
    else '_'
  }

  /** The value of an alphabet character, or None for any other character
      (the padding character `=` included). */
  function IndexOf(c: char): (r: Option<sextet>)
    ensures r.Some? ==> CharOf(r.value) == c
  {
    if 'A' <= c <= 'Z' then Some(c as int - 65)
    else if 'a' <= c <= 'z' then Some(c as int - 97 + 26)
    else if '0' <= c <= '9' then Some(c as int - 48 + 52)
    else if c == '-' then Some(62)
    else if c == '_' then Some(63)
    else None
  }

  lemma IndexOfCharOf(i: sextet)
    ensures IndexOf(CharOf(i)) == Some(i)
  {
  }

  predicate InAlphabet(c: char) {
    IndexOf(c).Some?
  }

  /** Go's `RawURLEncoding.EncodedLen`: `(8n + 5) / 6`. */
  function EncodedLen(n: nat): nat {
    (8 * n + 5) / 6
  }

  /** One full 3-byte group as 4 characters. */
  function EncodeGroup(b0: byte, b1: byte, b2: byte): (s: string)
    ensures |s| == 4
  {
    [CharOf(b0 / 4), CharOf((b0 % 4) * 16 + b1 / 16), CharOf((b1 % 16) * 4 + b2 / 64), CharOf(b2 % 64)]
  }

  /** The final group: one byte gives 2 characters, two bytes give 3, and no
      padding follows. */
  function EncodeTail(b: seq<byte>): (s: string)
    requires |b| < 3
    ensures |s| == EncodedLen(|b|)
  {
    if |b| == 0 then ""
    else if |b| == 1 then [CharOf(b[0] / 4), CharOf((b[0] % 4) * 16)]
    else [CharOf(b[0] / 4), CharOf((b[0] % 4) * 16 + b[1] / 16), CharOf((b[1] % 16) * 4)]
  }

  function Encode(b: seq<byte>): (s: string)
    ensures |s| == EncodedLen(|b|)
    ensures forall k :: 0 <= k < |s| ==> InAlphabet(s[k])
    decreases |b|
  {
    if |b| < 3 then
      var t := EncodeTail(b);
      assert forall k :: 0 <= k < |t| ==> exists i: sextet :: t[k] == CharOf(i);
      AlphabetChars(t);
      t
    else
      var g := EncodeGroup(b[0], b[1], b[2]);
      var rest := Encode(b[3..]);
      AlphabetChars(g);
      g + rest
  }

  /** Every character produced by `CharOf` is in the alphabet. */
  lemma AlphabetChars(s: string)
    requires forall k :: 0 <= k < |s| ==> exists i: sextet :: s[k] == CharOf(i)
    ensures forall k :: 0 <= k < |s| ==> InAlphabet(s[k])
  {
    forall k | 0 <= k < |s| ensures InAlphabet(s[k]) {
      var i: sextet :| s[k] == CharOf(i);
      IndexOfCharOf(i);
    }
  }

  /** A decoder for the same alphabet. It is canonical in the sense of
      section 3.5 of RFC 4648: it rejects any character outside the
      alphabet, a final group of one character, and a final group whose
      unused low bits are not zero. */
  function Decode(s: string): Option<seq<byte>>
    decreases |s|
  {
    if |s| == 0 then Some([])
    else if |s| == 1 then None
    else
      var c0 :- IndexOf(s[0]);
      var c1 :- IndexOf(s[1]);
      var b0: byte := c0 * 4 + c1 / 16;
      if |s| == 2 then
        if c1 % 16 != 0 then None else Some([b0])
      else
        var c2 :- IndexOf(s[2]);
        var b1: byte := (c1 % 16) * 16 + c2 / 4;
        if |s| == 3 then
          if c2 % 4 != 0 then None else Some([b0, b1])
        else
          var c3 :- IndexOf(s[3]);
          var b2: byte := (c2 % 4) * 64 + c3;
          var rest :- Decode(s[4..]);
          Some([b0, b1, b2] + rest)
  }

  lemma GroupBits(b0: byte, b1: byte, b2: byte)
    ensures (b0 / 4) * 4 + ((b0 % 4) * 16 + b1 / 16) / 16 == b0
    ensures (((b0 % 4) * 16 + b1 / 16) % 16) * 16 + ((b1 % 16) * 4 + b2 / 64) / 4 == b1
    ensures (((b1 % 16) * 4 + b2 / 64) % 4) * 64 + b2 % 64 == b2
  {
  }

  lemma DecodeTail(b: seq<byte>)
    requires |b| < 3
    ensures Decode(EncodeTail(b)) == Some(b)
  {
    if |b| > 0 {
      IndexOfCharOf(b[0] / 4);
      IndexOfCharOf((b[0] % 4) * 16);
      if |b| == 2 {
        IndexOfCharOf((b[0] % 4) * 16 + b[1] / 16);
        IndexOfCharOf((b[1] % 16) * 4);
        GroupBits(b[0], b[1], 0);
        assert [b[0], b[1]] == b;
      } else {
        GroupBits(b[0], 0, 0);
        assert [b[0]] == b;
      }
    }
  }

  /** A full group decodes to its three bytes, followed by whatever the
      remaining characters decode to. */
  lemma DecodeGroup(b0: byte, b1: byte, b2: byte, rest: string)
    ensures Decode(EncodeGroup(b0, b1, b2) + rest)
            == (match Decode(rest) case Some(r) => Some([b0, b1, b2] + r) case None => None)
  {
    var s := EncodeGroup(b0, b1, b2) + rest;
    IndexOfCharOf(b0 / 4);
    IndexOfCharOf((b0 % 4) * 16 + b1 / 16);
    IndexOfCharOf((b1 % 16) * 4 + b2 / 64);
    IndexOfCharOf(b2 % 64);
    GroupBits(b0, b1, b2);
    assert s[4..] == rest;
  }

  /** Decoding undoes encoding. */
  lemma {:induction false} DecodeEncode(b: seq<byte>)
    ensures Decode(Encode(b)) == Some(b)
    decreases |b|
  {
    if |b| < 3 {
      DecodeTail(b);
    } else {
      DecodeGroup(b[0], b[1], b[2], Encode(b[3..]));
      DecodeEncode(b[3..]);
      assert [b[0], b[1], b[2]] + b[3..] == b;
    }
  }

  /** Encoding is injective: distinct payloads give distinct strings. */
  lemma EncodeInjective(a: seq<byte>, b: seq<byte>)
    requires Encode(a) == Encode(b)
    ensures a == b
  {
    DecodeEncode(a);
    DecodeEncode(b);
  }

  /** Splitting four sextets into three bytes and back gives the sextets. */
  lemma SextetBits(c0: sextet, c1: sextet, c2: sextet, c3: sextet)
    ensures (c0 * 4 + c1 / 16) / 4 == c0
    ensures ((c0 * 4 + c1 / 16) % 4) * 16 + ((c1 % 16) * 16 + c2 / 4) / 16 == c1
    ensures (((c1 % 16) * 16 + c2 / 4) % 16) * 4 + ((c2 % 4) * 64 + c3) / 64 == c2
    ensures ((c2 % 4) * 64 + c3) % 64 == c3
  {
  }

  /** Four alphabet characters are the encoding of the group they decode to. */
  lemma EncodeGroupOfSextets(c0: sextet, c1: sextet, c2: sextet, c3: sextet)
    ensures EncodeGroup(c0 * 4 + c1 / 16, (c1 % 16) * 16 + c2 / 4, (c2 % 4) * 64 + c3)
            == [CharOf(c0), CharOf(c1), CharOf(c2), CharOf(c3)]
  {
    SextetBits(c0, c1, c2, c3);
  }

  /** A final group of two or three characters the decoder accepts is the
      encoding of the bytes it decodes to. */
  lemma EncodeDecodeTail(s: string)
    requires 2 <= |s| < 4 && Decode(s).Some?
    ensures Encode(Decode(s).value) == s
  {
    var c0: int, c1: int := IndexOf(s[0]).value, IndexOf(s[1]).value;
    if |s| == 2 {
      EncodeTwoChars(c0, c1);
      assert Decode(s).value == [c0 * 4 + c1 / 16];
      assert s == [CharOf(c0), CharOf(c1)];
    } else {
      var c2: int := IndexOf(s[2]).value;
      EncodeThreeChars(c0, c1, c2);
      assert Decode(s).value == [c0 * 4 + c1 / 16, (c1 % 16) * 16 + c2 / 4];
      assert s == [CharOf(c0), CharOf(c1), CharOf(c2)];
    }
  }

  lemma EncodeTwoChars(c0: sextet, c1: sextet)
    requires c1 % 16 == 0
    ensures Encode([c0 * 4 + c1 / 16]) == [CharOf(c0), CharOf(c1)]
  {
    SextetBits(c0, c1, 0, 0);
  }

  lemma EncodeThreeChars(c0: sextet, c1: sextet, c2: sextet)
    requires c2 % 4 == 0
    ensures Encode([c0 * 4 + c1 / 16, (c1 % 16) * 16 + c2 / 4]) == [CharOf(c0), CharOf(c1), CharOf(c2)]
  {
    SextetBits(c0, c1, c2, 0);
  }

  /** Encoding undoes decoding: a string the decoder accepts is the one
      encoding of what it decodes to. */
  lemma {:induction false} EncodeDecode(s: string)
    requires Decode(s).Some?
    ensures Encode(Decode(s).value) == s
    decreases |s|
  {
    if 2 <= |s| < 4 {
      EncodeDecodeTail(s);
    } else if |s| >= 4 {
      var c0: int, c1: int, c2: int, c3: int := IndexOf(s[0]).value, IndexOf(s[1]).value, IndexOf(s[2]).value, IndexOf(s[3]).value;
      var b0: byte, b1: byte, b2: byte := c0 * 4 + c1 / 16, (c1 % 16) * 16 + c2 / 4, (c2 % 4) * 64 + c3;
      var rest := Decode(s[4..]).value;
      var b := Decode(s).value;
      assert b == [b0, b1, b2] + rest;
      EncodeDecode(s[4..]);
      EncodeGroupOfSextets(c0, c1, c2, c3);
      assert b[3..] == rest;
      assert Encode(b) == EncodeGroup(b0, b1, b2) + Encode(rest);
      assert s == [s[0], s[1], s[2], s[3]] + s[4..];
    }
  }

  /** The decoder accepts exactly the encodings: a string decodes to `b`
      iff it is the encoding of `b`. */
  lemma DecodeIffEncode(s: string, b: seq<byte>)
    ensures Decode(s) == Some(b) <==> Encode(b) == s
  {
    if Decode(s) == Some(b) { EncodeDecode(s); }
    if Encode(b) == s { DecodeEncode(b); }
  }
}

=== FILE: client.dfy ===
/** The client pool: `New` builds `Clients` handles of each kind from one
    resolved config, and the two accessors hand them out round-robin through
    one shared cursor. Handles are opaque values of types `K` (Kubernetes
    client sets) and `E` (API-extensions client sets). */
module Client {
  import opened Wrappers
  import opened ClientConfig
  import opened Resolve

  /** `client`: the caller's config, the two handle slices and the cursor. */
  datatype Client<K, E> = Client(cfg: Config, clients: seq<K>, extensionClients: seq<E>, cur: nat)

  /** The shape `New` establishes and every accessor call keeps: equally
      many handles of each kind, at least one, cursor in range. */
  predicate Valid<K, E>(c: Client<K, E>) {
    |c.clients| == |c.extensionClients| && 0 < |c.clients| && c.cur < |c.clients|
  }

  /** `KubernetesClient`: nil on an empty slice; otherwise the cursor moves
      one step, wrapping, and the handle under it is returned. */
  function KubernetesClient<K, E>(c: Client<K, E>): (r: (Client<K, E>, Option<K>))
    ensures |c.clients| == 0 ==> r == (c, None)
    ensures |c.clients| > 0 ==>
              && r.0 == c.(cur := r.0.cur)
              && r.0.cur < |c.clients|
              && r.0.cur == (c.cur + 1) % |c.clients|
              && r.1 == Some(c.clients[r.0.cur])
    ensures Valid(c) ==> Valid(r.0)
  {
    if |c.clients| == 0 then (c, None)
    else
      var c' := c.(cur := (c.cur + 1) % |c.clients|);
      (c', Some(c'.clients[c'.cur]))
  }

  /** `APIExtensionsClient`: the same step over the other slice, moving the
      same cursor. */
  function APIExtensionsClient<K, E>(c: Client<K, E>): (r: (Client<K, E>, Option<E>))
    ensures |c.extensionClients| == 0 ==> r == (c, None)
    ensures |c.extensionClients| > 0 ==>
              && r.0 == c.(cur := r.0.cur)
              && r.0.cur < |c.extensionClients|
              && r.0.cur == (c.cur + 1) % |c.extensionClients|
              && r.1 == Some(c.extensionClients[r.0.cur])
    ensures Valid(c) ==> Valid(r.0)
  {
    if |c.extensionClients| == 0 then (c, None)
    else
      var c' := c.(cur := (c.cur + 1) % |c.extensionClients|);
      (c', Some(c'.extensionClients[c'.cur]))
  }

  /** `Config()`: a copy of the caller's config as `New` left it. */
  function GetConfig<K, E>(c: Client<K, E>): Config {
    c.cfg
  }

  /** `Config()` reads the same config however many handles were taken:
      the accessors move only the cursor. */
  lemma {:induction false} ConfigUnchangedByCalls<K, E>(c: Client<K, E>, calls: seq<Accessor>)
    ensures GetConfig(Calls(c, calls).0) == GetConfig(c)
    decreases |calls|
  {
    if |calls| > 0 {
      ConfigUnchangedByCalls(Call(c, calls[0]).0, calls[1..]);
    }
  }

  /** Which accessor a caller uses, and what it gets back. */
  datatype Accessor = Kubernetes | APIExtensions
  datatype Handle<K, E> = KubernetesHandle(k: K) | ExtensionsHandle(e: E)

  function Call<K, E>(c: Client<K, E>, a: Accessor): (Client<K, E>, Option<Handle<K, E>>) {
    match a
    case Kubernetes =>
      var (c', h) := KubernetesClient(c);
      (c', if h.Some? then Some(KubernetesHandle(h.value)) else None)
    case APIExtensions =>
      var (c', h) := APIExtensionsClient(c);
      (c', if h.Some? then Some(ExtensionsHandle(h.value)) else None)
  }

  /** A sequence of accessor calls in order, with what each returned. */
  function Calls<K, E>(c: Client<K, E>, calls: seq<Accessor>): (r: (Client<K, E>, seq<Option<Handle<K, E>>>))
    ensures |r.1| == |calls|
    decreases |calls|
  {
    if |calls| == 0 then (c, [])
    else
      var (c', h) := Call(c, calls[0]);
      var (c'', hs) := Calls(c', calls[1..]);
      (c'', [h] + hs)
  }

  /** The handle at position `i` of the slice that accessor `a` reads. */
  function At<K, E>(c: Client<K, E>, a: Accessor, i: nat): Handle<K, E>
    requires Valid(c) && i < |c.clients|
  {
    match a
    case Kubernetes => KubernetesHandle(c.clients[i])
    case APIExtensions => ExtensionsHandle(c.extensionClients[i])
  }

  /** `a % n` is the remainder of any division of `a` by `n`. */
  lemma ModUnique(a: int, q: int, r: int, n: int)
    requires n > 0 && 0 <= r < n && a == q * n + r
    ensures a % n == r
  {
    var d := a / n;
    assert a == d * n + a % n;
    assert (q - d) * n == a % n - r;
    if q > d {
      MulAtLeast(q - d, n);
    } else if q < d {
      MulAtLeast(d - q, n);
    }
  }

  lemma MulAtLeast(m: int, n: int)
    requires m >= 1 && n > 0
    ensures m * n >= n
  {
  }

  lemma ModSucc(a: nat, n: nat)
    requires n > 0
    ensures (a % n + 1) % n == (a + 1) % n
  {
    var q := a / n;
    assert a == q * n + a % n;
    if a % n + 1 < n {
      ModUnique(a % n + 1, 0, a % n + 1, n);
      ModUnique(a + 1, q, a % n + 1, n);
    } else {
      ModUnique(a % n + 1, 1, 0, n);
      assert a + 1 == (q + 1) * n + 0;
      ModUnique(a + 1, q + 1, 0, n);
    }
  }

  /** Stepping from a reduced cursor is stepping from the unreduced one. */
  lemma {:induction false} ModAdd(a: nat, k: nat, n: nat)
    requires n > 0
    ensures (a % n + k) % n == (a + k) % n
  {
    if k > 0 {
      var x: nat := a % n + k - 1;
      var y: nat := a + k - 1;
      ModAdd(a, k - 1, n);
      assert x % n == y % n;
      ModSucc(x, n);
      ModSucc(y, n);
      calc {
        (x + 1) % n;
        (x % n + 1) % n;
        (y % n + 1) % n;
        (y + 1) % n;
      }
    }
  }

  lemma ModPeriod(a: nat, n: nat)
    requires n > 0
    ensures (a + n) % n == a % n
  {
    assert a == (a / n) * n + a % n;
    assert a + n == (a / n + 1) * n + a % n;
    ModUnique(a + n, a / n + 1, a % n, n);
  }

  /** Round-robin over one shared cursor: whatever mix of accessors is
      called, the `j`-th call returns the handle `cur + j + 1` places on
      (wrapping), and the cursor ends `|calls|` places on. */
  lemma {:induction false} CallsRoundRobin<K, E>(c: Client<K, E>, calls: seq<Accessor>)
    requires Valid(c)
    ensures var c', hs := Calls(c, calls).0, Calls(c, calls).1;
            && Valid(c')
            && c' == c.(cur := c'.cur)
            && c'.cur == (c.cur + |calls|) % |c.clients|
            && |hs| == |calls|
            && forall j :: 0 <= j < |calls| ==> hs[j] == Some(At(c, calls[j], (c.cur + j + 1) % |c.clients|))
    decreases |calls|
  {
    var n := |c.clients|;
    if |calls| > 0 {
      var (c1, h) := Call(c, calls[0]);
      assert c1 == c.(cur := (c.cur + 1) % n);
      CallsRoundRobin(c1, calls[1..]);
      var (c', hs') := Calls(c1, calls[1..]);
      var hs := [h] + hs';
      ModAdd(c.cur + 1, |calls| - 1, n);
      forall j | 1 <= j < |calls|
        ensures hs[j] == Some(At(c, calls[j], (c.cur + j + 1) % n))
      {
        assert hs[j] == hs'[j - 1];
        assert calls[j] == calls[1..][j - 1];
        ModAdd(c.cur + 1, j, n);
      }
    }
  }

  /** The handle one call of a sequence returns. */
  lemma {:induction false} CallReturns<K, E>(c: Client<K, E>, calls: seq<Accessor>, j: nat)
    requires Valid(c) && j < |calls|
    ensures Calls(c, calls).1[j] == Some(At(c, calls[j], (c.cur + j + 1) % |c.clients|))
  {
    CallsRoundRobin(c, calls);
  }

  /** Calls `n` apart on a pool of `n` get the same handle when they use
      the same accessor: selection has period `n`. */
  lemma {:induction false} CallsPeriodic<K, E>(c: Client<K, E>, calls: seq<Accessor>, j: nat)
    requires Valid(c)
    requires j + |c.clients| < |calls|
    requires calls[j] == calls[j + |c.clients|]
    ensures Calls(c, calls).1[j] == Calls(c, calls).1[j + |c.clients|]
  {
    var n := |c.clients|;
    CallReturns(c, calls, j);
    CallReturns(c, calls, j + n);
    ModPeriod(c.cur + j + 1, n);
    assert c.cur + (j + n) + 1 == c.cur + j + 1 + n;
  }

  /** From a fresh pool (cursor 0) the first call gets position 1, and call
      `j` gets position `(j + 1) % n`: 1, 2, ..., n - 1, 0, 1, ... */
  lemma FreshPoolStartsAtOne<K, E>(c: Client<K, E>, calls: seq<Accessor>, j: nat)
    requires Valid(c) && c.cur == 0 && j < |calls|
    ensures Calls(c, calls).1[j] == Some(At(c, calls[j], (j + 1) % |c.clients|))
  {
    CallReturns(c, calls, j);
  }

  /** The `Clients` normalisation: fewer than one client means one. */
  function NormalizeClients(cfg: Config): (r: Config)
    ensures r.clients >= 1
    ensures cfg.clients >= 1 ==> r.clients == cfg.clients
    ensures cfg.clients < 1 ==> r.clients == 1
    ensures r == cfg.(clients := r.clients)
  {
    if cfg.clients < 1 then cfg.(clients := 1) else cfg
  }

  /** Why `New` can fail: resolution, or building the `i`-th handle. */
  datatype NewError = ConfigFailed(configError: ConfigError) | HandleFailed(index: nat, message: string)

  /** `New`, from the `Clients` clamp on; the file-system and kubectl
      download steps are not modelled. `newClient(kcfg, i)` and
      `newExtensionClient(kcfg, i)` stand for the `i`-th `NewForConfig`
      call of each kind: opaque and fallible. */
  method New<K, E>(cfg: Config, env: Environment,
                   newClient: (RestConfig, nat) -> Result<K, string>,
                   newExtensionClient: (RestConfig, nat) -> Result<E, string>)
    returns (r: Result<Client<K, E>, NewError>)
    ensures CreateRestConfig(NormalizeClients(cfg), env).Failure? ==>
              r == Failure(ConfigFailed(CreateRestConfig(NormalizeClients(cfg), env).error))
    ensures r.Success? ==>
              var res := CreateRestConfig(NormalizeClients(cfg), env).value;
              var n := NormalizeClients(cfg).clients;
              && CreateRestConfig(NormalizeClients(cfg), env).Success?
              && Valid(r.value) && r.value.cur == 0
              && GetConfig(r.value) == res.cfg
              && |r.value.clients| == n
              && (forall i :: 0 <= i < n ==> newClient(res.kcfg, i) == Success(r.value.clients[i]))
              && (forall i :: 0 <= i < n ==> newExtensionClient(res.kcfg, i) == Success(r.value.extensionClients[i]))
    ensures CreateRestConfig(NormalizeClients(cfg), env).Success? ==>
              var kcfg := CreateRestConfig(NormalizeClients(cfg), env).value.kcfg;
              (r.Success? <==> forall i :: 0 <= i < NormalizeClients(cfg).clients ==>
                                 newClient(kcfg, i).Success? && newExtensionClient(kcfg, i).Success?)
    ensures r.Failure? && r.error.HandleFailed? ==>
              var kcfg := CreateRestConfig(NormalizeClients(cfg), env).value.kcfg;
              var i := r.error.index;
              && i < NormalizeClients(cfg).clients
              && (forall j :: 0 <= j < i ==> newClient(kcfg, j).Success? && newExtensionClient(kcfg, j).Success?)
              && (if newClient(kcfg, i).Failure? then r.error.message == newClient(kcfg, i).error
                  else newExtensionClient(kcfg, i).Failure? && r.error.message == newExtensionClient(kcfg, i).error)
  {
    var cfg' := NormalizeClients(cfg);
    var resolved := CreateRestConfig(cfg', env);
    if resolved.Failure? {
      return Failure(ConfigFailed(resolved.error));
    }
    var ccfg := resolved.value.kcfg;
    var clients: seq<K> := [];
    var extensionClients: seq<E> := [];
    var i := 0;
    while i < cfg'.clients
      invariant 0 <= i <= cfg'.clients
      invariant |clients| == i && |extensionClients| == i
      invariant forall j :: 0 <= j < i ==> newClient(ccfg, j) == Success(clients[j])
      invariant forall j :: 0 <= j < i ==> newExtensionClient(ccfg, j) == Success(extensionClients[j])
    {
      var k := newClient(ccfg, i);
      if k.Failure? {
        return Failure(HandleFailed(i, k.error));
      }
      var e := newExtensionClient(ccfg, i);
      if e.Failure? {
        return Failure(HandleFailed(i, e.error));
      }
      clients := clients + [k.value];
      extensionClients := extensionClients + [e.value];
      i := i + 1;
    }
    return Success(Client(resolved.value.cfg, clients, extensionClients, 0));
  }
}

=== FILE: config.dfy ===
/** The configuration records of the client package: the caller's `Config`
    with its `EKS` hint, and the `rest.Config` the resolution chain produces. */
module ClientConfig {
  import opened Wrappers

  /** `EKS`: the cluster identity the caller already knows, possibly partially. */
  datatype EKS = EKS(
    region: string,
    clusterName: string,
    clusterAPIServerEndpoint: string,
    clusterCADecoded: string)

  /** `Config`, without the logger and the kubectl download fields, which
      only the left-out file-system work reads. `clientQPS` stands for the
      `float32` and is only compared with 0; `clientTimeout` is a
      `time.Duration` in nanoseconds. */
  datatype Config = Config(
    kubeconfigPath: string,
    kubeconfigContext: string,
    eks: Option<EKS>,
    clients: int,
    clientQPS: real,
    clientBurst: int,
    clientTimeout: int)

  /** `clientcmdapi.AuthProviderConfig`. */
  datatype AuthProviderConfig = AuthProviderConfig(name: string, config: map<string, string>)

  /** The parts of `rest.Config` the package reads or writes. `caData` is
      `TLSClientConfig.CAData` read as a string. */
  datatype RestConfig = RestConfig(
    host: string,
    caData: string,
    qps: real,
    burst: int,
    timeout: int,
    authProvider: Option<AuthProviderConfig>)

  /** A `rest.Config` literal with everything else left at Go's zero value. */
  function ZeroRestConfig(host: string, caData: string, authProvider: Option<AuthProviderConfig>): RestConfig {
    RestConfig(host, caData, 0.0, 0, 0, authProvider)
  }

  /** Go's map index: a missing key reads as the empty string. */
  function Lookup(m: map<string, string>, key: string): (v: string)
    ensures key !in m ==> v == ""
    ensures key in m ==> v == m[key]
  {
    if key in m then m[key] else ""
  }

  /** The errors the resolution chain can return, one per `errors.New`. */
  datatype ConfigError =
    | EmptyKubeconfig
    | KubeconfigLoadFailed
    | EmptyEKSConfig
    | EmptyRegion
    | EmptyClusterName
    | EmptyClusterAPIServerEndpoint
    | EmptyClusterCADecoded
    | NoConfig
  {
    function Message(): string {
      match this
      case EmptyKubeconfig => "empty KUBECONFIG"
      case KubeconfigLoadFailed => "failed to create config from KUBECONFIG"
      case EmptyEKSConfig => "empty EKS config"
      case EmptyRegion => "empty Region"
      case EmptyClusterName => "empty ClusterName"
      case EmptyClusterAPIServerEndpoint => "empty ClusterAPIServerEndpoint"
      case EmptyClusterCADecoded => "empty ClusterCADecoded"
      case NoConfig => "failed to create config"
    }
  }

  /** The modelled resolution errors have pairwise distinct messages. The
      text "empty ClusterAPIServerEndpoint" is written twice in the source,
      by the EKS strategy and by reconciliation; the chain discards the
      strategy's error, so only reconciliation's can reach a caller, and
      both are the one constructor `EmptyClusterAPIServerEndpoint` here. */
  lemma MessagesDistinct(e1: ConfigError, e2: ConfigError)
    ensures e1.Message() == e2.Message() <==> e1 == e2
  {
  }
}

=== FILE: errors.dfy ===
/** The error classifiers of the client package: which failures of a call to
    the Kubernetes API server are transient and worth another attempt. */
module Errors {
  import opened Wrappers

  /** `meta_v1.StatusReasonConflict` and `meta_v1.StatusReasonNotFound`. */
  const StatusReasonConflict: string := "Conflict"
  const StatusReasonNotFound: string := "NotFound"
  /** The resource kind that marks the one conflict that is retried. */
  const ResourceQuotasKind: string := "resourcequotas"

  datatype StatusDetails = StatusDetails(kind: string)

  /** The `metav1.Status` carried by an API error: its reason and optional details. */
  datatype Status = Status(reason: string, details: Option<StatusDetails>)

  /** What a `net.Error` reports about itself. */
  datatype NetErrorInfo = NetErrorInfo(temporary: bool, timeout: bool)

  /** An error value as the classifiers see it.
      - `apiStatus` is present exactly when the error value itself implements
        `APIStatus` (a direct type assertion, so a wrapped API error has none);
      - the boolean flags are the answers of the apimachinery predicates
        (`IsInternalError`, `IsTimeout`, ..., `IsUnauthorized`), which the
        model takes as given;
      - `retryAfterSeconds` is the hint `SuggestsClientDelay` finds, if any;
      - `net` is present exactly when the error is a `net.Error`. */
  datatype Error = Error(
    message: string,
    apiStatus: Option<Status>,
    internal: bool,
    timeout: bool,
    serverTimeout: bool,
    tooManyRequests: bool,
    probableEOF: bool,
    connectionReset: bool,
    unauthorized: bool,
    retryAfterSeconds: Option<int>,
    net: Option<NetErrorInfo>)

  /** A Conflict is retryable only when it is an API status whose details
      name the `resourcequotas` kind. */
  predicate IsResourceQuotaConflictError(err: Error): (r: bool)
    ensures r ==> err.apiStatus.Some? && err.apiStatus.value.reason == StatusReasonConflict
                  && err.apiStatus.value.details.Some?
    ensures r <==> Shows(err, ResourceQuotaConflict)
  {
    match err.apiStatus
    case None => false
    case Some(status) =>
      if status.reason != StatusReasonConflict then false
      else status.details.Some? && status.details.value.kind == ResourceQuotasKind
  }

  /** An API error is retryable exactly when it shows some transient
      indication. */
  predicate IsRetryableAPIError(err: Error): (r: bool)
    ensures r <==> exists i: Indication :: Shows(err, i)
  {
    IndicationWitness(err);
    if err.internal || err.timeout || err.serverTimeout
       || err.tooManyRequests || err.probableEOF || err.connectionReset
       || IsResourceQuotaConflictError(err)
       || err.unauthorized
    then true
    else if err.retryAfterSeconds.Some? then true
    else false
  }

  /** A net error is retryable exactly when it is temporary or a timeout;
      a non-net error never is. */
  predicate IsRetryableNetError(err: Error): (r: bool)
    ensures r <==> err.net.Some? && (err.net.value.temporary || err.net.value.timeout)
    ensures err.net.None? ==> !r
  {
    match err.net
    case Some(n) => n.temporary || n.timeout
    case None => false
  }

  /** The built-in classifier the retry engine consults first. */
  predicate IsBuiltinRetryable(err: Error) {
    IsRetryableAPIError(err) || IsRetryableNetError(err)
  }

  /** The transient conditions an API error can indicate, one per disjunct
      of the classifier. */
  datatype Indication =
    | InternalError | Timeout | ServerTimeout | TooManyRequests
    | ProbableEOF | ConnectionReset | ResourceQuotaConflict | Unauthorized
    | RetryAfter

  /** Whether `err` shows the indication `i`. */
  predicate Shows(err: Error, i: Indication) {
    match i
    case InternalError => err.internal
    case Timeout => err.timeout
    case ServerTimeout => err.serverTimeout
    case TooManyRequests => err.tooManyRequests
    case ProbableEOF => err.probableEOF
    case ConnectionReset => err.connectionReset
    case ResourceQuotaConflict =>
      err.apiStatus.Some? && err.apiStatus.value.reason == StatusReasonConflict
      && err.apiStatus.value.details.Some?
      && err.apiStatus.value.details.value.kind == ResourceQuotasKind
    case Unauthorized => err.unauthorized
    case RetryAfter => err.retryAfterSeconds.Some?
  }

  /** Each disjunct of the classifier names the indication it shows. */
  lemma IndicationWitness(err: Error)
    ensures (|| err.internal || err.timeout || err.serverTimeout
             || err.tooManyRequests || err.probableEOF || err.connectionReset
             || IsResourceQuotaConflictError(err) || err.unauthorized
             || err.retryAfterSeconds.Some?)
            ==> exists i: Indication :: Shows(err, i)
  {
    if err.internal { assert Shows(err, InternalError); }
    else if err.timeout { assert Shows(err, Timeout); }
    else if err.serverTimeout { assert Shows(err, ServerTimeout); }
    else if err.tooManyRequests { assert Shows(err, TooManyRequests); }
    else if err.probableEOF { assert Shows(err, ProbableEOF); }
    else if err.connectionReset { assert Shows(err, ConnectionReset); }
    else if IsResourceQuotaConflictError(err) { assert Shows(err, ResourceQuotaConflict); }
    else if err.unauthorized { assert Shows(err, Unauthorized); }
    else if err.retryAfterSeconds.Some? { assert Shows(err, RetryAfter); }
  }

  /** None of the apimachinery predicates fires and no retry-after hint is
      given: the only thing left to classify is the status itself. */
  predicate NoOtherIndication(err: Error) {
    && !err.internal && !err.timeout && !err.serverTimeout && !err.tooManyRequests
    && !err.probableEOF && !err.connectionReset && !err.unauthorized
    && err.retryAfterSeconds.None?
  }

  /** The resource-quota carve-out: a conflict with details and no other
      indication is retried exactly when its details name `resourcequotas`;
      any other such conflict is terminal for the API classifier. */
  lemma ConflictRetryableOnlyForResourceQuotas(err: Error)
    requires err.apiStatus.Some? && err.apiStatus.value.reason == StatusReasonConflict
    requires err.apiStatus.value.details.Some?
    requires NoOtherIndication(err)
    ensures IsRetryableAPIError(err) <==> err.apiStatus.value.details.value.kind == ResourceQuotasKind
  {
    if IsRetryableAPIError(err) {
      var i: Indication :| Shows(err, i);
      assert i == ResourceQuotaConflict;
    } else {
      assert !Shows(err, ResourceQuotaConflict);
    }
  }

  /** A conflict without details is never the quota carve-out. */
  lemma ConflictWithoutDetailsNotRetryable(err: Error)
    requires err.apiStatus == Some(Status(StatusReasonConflict, None))
    ensures !IsResourceQuotaConflictError(err)
  {
  }

  /** A NotFound status with no other indication that is not a net error
      is terminal for the built-in classifier. */
  lemma NotFoundNotRetryable(err: Error)
    requires err.apiStatus.Some? && err.apiStatus.value.reason == StatusReasonNotFound
    requires NoOtherIndication(err) && err.net.None?
    ensures !IsBuiltinRetryable(err)
  {
    assert !Shows(err, ResourceQuotaConflict);
  }
}

=== FILE: resolve.dfy ===
/** `createRestConfig`: the strategy chain that yields a base `rest.Config`,
    the reconciliation of the caller's EKS hint against it, and the caller's
    throttle and timeout overrides. The in-place update of `cfg.EKS` is
    returned as a new hint with the notes the source logs. */
module Resolve {
  import opened Wrappers
  import opened ClientConfig
  import Auth

  /** The library loaders, opaque: each either yields a config or fails.
      - `loadWithContext(path, context)`: a deferred-loading client config
        for an explicit path with the current context overridden;
      - `loadFromFlags(path)`: `BuildConfigFromFlags("", path)`;
      - `inCluster`: `InClusterConfig()`;
      - `defaults`: `DefaultClientConfig.ClientConfig()`. */
  datatype Environment = Environment(
    loadWithContext: (string, string) -> Option<RestConfig>,
    loadFromFlags: string -> Option<RestConfig>,
    inCluster: Option<RestConfig>,
    defaults: Option<RestConfig>)

  /** `createRestConfigFromKubeconfig`. */
  function FromKubeconfig(cfg: Config, env: Environment): (r: Result<RestConfig, ConfigError>)
    ensures cfg.kubeconfigPath == "" ==> r == Failure(EmptyKubeconfig)
    ensures cfg.kubeconfigPath != "" && cfg.kubeconfigContext != ""
            ==> r.ToOption() == env.loadWithContext(cfg.kubeconfigPath, cfg.kubeconfigContext)
    ensures cfg.kubeconfigPath != "" && cfg.kubeconfigContext == ""
            ==> r.ToOption() == env.loadFromFlags(cfg.kubeconfigPath)
    ensures r.Failure? && cfg.kubeconfigPath != "" ==> r.error == KubeconfigLoadFailed
  {
    if cfg.kubeconfigPath == "" then Failure(EmptyKubeconfig)
    else
      var kcfg :=
        if cfg.kubeconfigContext != "" then env.loadWithContext(cfg.kubeconfigPath, cfg.kubeconfigContext)
        else env.loadFromFlags(cfg.kubeconfigPath);
      if kcfg.None? then Failure(KubeconfigLoadFailed) else Success(kcfg.value)
  }

  /** `createRestConfigFromEKS`: succeeds only from a complete hint, checked
      in the order region, cluster name, endpoint, CA; the config it builds
      points at the hint's endpoint with the hint's CA and names the `eks`
      provider with exactly the region and cluster name. */
  function FromEKS(eks: Option<EKS>): (r: Result<RestConfig, ConfigError>)
    ensures eks.None? ==> r == Failure(EmptyEKSConfig)
    ensures eks.Some? && eks.value.region == "" ==> r == Failure(EmptyRegion)
    ensures eks.Some? && eks.value.region != "" && eks.value.clusterName == ""
            ==> r == Failure(EmptyClusterName)
    ensures eks.Some? && eks.value.region != "" && eks.value.clusterName != ""
            && eks.value.clusterAPIServerEndpoint == ""
            ==> r == Failure(EmptyClusterAPIServerEndpoint)
    ensures eks.Some? && eks.value.region != "" && eks.value.clusterName != ""
            && eks.value.clusterAPIServerEndpoint != "" && eks.value.clusterCADecoded == ""
            ==> r == Failure(EmptyClusterCADecoded)
    ensures r.Success? <==> eks.Some? && Complete(eks.value)
    ensures r.Success? ==>
              && r.value.host == eks.value.clusterAPIServerEndpoint
              && r.value.caData == eks.value.clusterCADecoded
              && r.value.authProvider.Some?
              && r.value.authProvider.value.name == Auth.AuthProviderName
              && r.value.authProvider.value.config.Keys == {Auth.RegionKey, Auth.ClusterNameKey}
              && r.value.authProvider.value.config[Auth.RegionKey] == eks.value.region
              && r.value.authProvider.value.config[Auth.ClusterNameKey] == eks.value.clusterName
  {
    if eks.None? then Failure(EmptyEKSConfig)
    else
      var h := eks.value;
      if h.region == "" then Failure(EmptyRegion)
      else if h.clusterName == "" then Failure(EmptyClusterName)
      else if h.clusterAPIServerEndpoint == "" then Failure(EmptyClusterAPIServerEndpoint)
      else if h.clusterCADecoded == "" then Failure(EmptyClusterCADecoded)
      else
        Success(ZeroRestConfig(
          h.clusterAPIServerEndpoint,
          h.clusterCADecoded,
          Some(AuthProviderConfig(Auth.AuthProviderName,
                 map[Auth.RegionKey := h.region, Auth.ClusterNameKey := h.clusterName]))))
  }

  /** All four identity fields are set. */
  predicate Complete(h: EKS) {
    h.region != "" && h.clusterName != "" && h.clusterAPIServerEndpoint != "" && h.clusterCADecoded != ""
  }

  /** The chain as written: kubeconfig; then the EKS hint, only when one is
      given; then in-cluster; then defaults. */
  function BaseConfig(cfg: Config, env: Environment): (r: Option<RestConfig>)
    ensures r.None? <==> && FromKubeconfig(cfg, env).Failure?
                         && (cfg.eks.None? || FromEKS(cfg.eks).Failure?)
                         && env.inCluster.None? && env.defaults.None?
    ensures FromKubeconfig(cfg, env).Success? ==> r == Some(FromKubeconfig(cfg, env).value)
    ensures cfg.kubeconfigPath == "" && cfg.eks.None? ==> r == (if env.inCluster.Some? then env.inCluster else env.defaults)
  {
    var fromKubeconfig := FromKubeconfig(cfg, env).ToOption();
    var afterEKS :=
      if fromKubeconfig.None? && cfg.eks.Some? then FromEKS(cfg.eks).ToOption() else fromKubeconfig;
    var afterInCluster := if afterEKS.None? then env.inCluster else afterEKS;
    if afterInCluster.None? then env.defaults else afterInCluster
  }

  /** The strategies in priority order, each as the config it would yield. */
  function Candidates(cfg: Config, env: Environment): seq<Option<RestConfig>> {
    [FromKubeconfig(cfg, env).ToOption()]
    + (if cfg.eks.Some? then [FromEKS(cfg.eks).ToOption()] else [])
    + [env.inCluster, env.defaults]
  }

  /** The first present element: the reference reading of "use the first
      strategy that succeeds". */
  function FirstSome<T>(xs: seq<Option<T>>): (r: Option<T>)
    ensures r.None? <==> forall i :: 0 <= i < |xs| ==> xs[i].None?
    ensures r.Some? ==> exists i :: 0 <= i < |xs| && xs[i] == r
                                   && forall j :: 0 <= j < i ==> xs[j].None?
  {
    if |xs| == 0 then None
    else if xs[0].Some? then xs[0]
    else
      var r := FirstSome(xs[1..]);
      assert forall i :: 1 <= i < |xs| ==> xs[i] == xs[1..][i - 1];
      r
  }

  /** The chain picks the first strategy that succeeds. */
  lemma BaseConfigIsFirstSuccess(cfg: Config, env: Environment)
    ensures BaseConfig(cfg, env) == FirstSome(Candidates(cfg, env))
  {
    var c := Candidates(cfg, env);
    if cfg.eks.Some? {
      assert c == [c[0], c[1], c[2], c[3]];
      assert c[1..] == [c[1], c[2], c[3]];
      assert c[1..][1..] == [c[2], c[3]];
      assert c[1..][1..][1..] == [c[3]];
    } else {
      assert c == [c[0], c[1], c[2]];
      assert c[1..] == [c[1], c[2]];
      assert c[1..][1..] == [c[2]];
    }
  }

  /** The fields of the hint, as named in the log lines. */
  datatype Field = Endpoint | CA | Region | ClusterName

  /** What reconciliation logs: an empty hint filled from the resolved value
      (info), a non-empty hint that disagrees and is kept (warning), a field
      still empty at the end (warning). */
  datatype Note =
    | Filled(field: Field, value: string)
    | Conflict(field: Field, hint: string, resolved: string)
    | Missing(field: Field)

  /** One field's rule: fill an empty hint, keep a non-empty one, and warn
      when a kept hint disagrees with the resolved value. */
  function ReconcileField(field: Field, hint: string, resolved: string): (r: (string, seq<Note>))
    ensures hint == "" ==> r.0 == resolved && r.1 == [Filled(field, resolved)]
    ensures hint != "" ==> r.0 == hint
    ensures hint != "" && hint != resolved ==> r.1 == [Conflict(field, hint, resolved)]
    ensures hint != "" && hint == resolved ==> r.1 == []
    ensures forall x :: x in r.1 ==> !x.Missing? && x.field == field
  {
    if hint == "" then (resolved, [Filled(field, resolved)])
    else if hint != resolved then (hint, [Conflict(field, hint, resolved)])
    else (hint, [])
  }

  /** Region and cluster name follow the field rule against the provider's
      parameter only when the config names a provider; otherwise the hint
      stays as it is and nothing is logged. */
  function ProviderField(field: Field, hint: string, provider: Option<AuthProviderConfig>, key: string): (r: (string, seq<Note>))
    ensures provider.None? ==> r == (hint, [])
    ensures provider.Some? ==> r == ReconcileField(field, hint, Lookup(provider.value.config, key))
    ensures forall x :: x in r.1 ==> !x.Missing? && x.field == field
  {
    match provider
    case None => (hint, [])
    case Some(p) => ReconcileField(field, hint, Lookup(p.config, key))
  }

  function MissingNote(field: Field, value: string): (notes: seq<Note>)
    ensures notes == [] <==> value != ""
    ensures forall x :: x in notes ==> x == Missing(field)
  {
    if value == "" then [Missing(field)] else []
  }

  /** Reconciliation of an EKS hint against the resolved config: endpoint
      (fatal when still empty), CA, then region and cluster name from the
      auth provider's parameters when the config names a provider. */
  function Reconcile(h: EKS, kcfg: RestConfig): (r: Result<(EKS, seq<Note>), ConfigError>)
    ensures r.Failure? <==> h.clusterAPIServerEndpoint == "" && kcfg.host == ""
    ensures r.Failure? ==> r.error == EmptyClusterAPIServerEndpoint
    ensures r.Success? ==> r.value.0.clusterAPIServerEndpoint != ""
    ensures r.Success? ==> Keeps(h, r.value.0) && Fills(h, kcfg, r.value.0)
    ensures r.Success? && kcfg.authProvider.None? ==>
              r.value.0.region == h.region && r.value.0.clusterName == h.clusterName
  {
    var (endpoint, endpointNotes) := ReconcileField(Endpoint, h.clusterAPIServerEndpoint, kcfg.host);
    if endpoint == "" then Failure(EmptyClusterAPIServerEndpoint)
    else
      var (ca, caNotes) := ReconcileField(CA, h.clusterCADecoded, kcfg.caData);
      var (region, regionNotes) := ProviderField(Region, h.region, kcfg.authProvider, Auth.RegionKey);
      var (name, nameNotes) := ProviderField(ClusterName, h.clusterName, kcfg.authProvider, Auth.ClusterNameKey);
      Success((EKS(region, name, endpoint, ca),
               endpointNotes + caNotes + MissingNote(CA, ca)
               + regionNotes + nameNotes + MissingNote(Region, region) + MissingNote(ClusterName, name)))
  }

  /** Fills and missing-field warnings match the fields: an empty hint is
      logged as filled, with the value it took (region and cluster name only
      when the config names a provider); a field still empty at the end is
      warned about; a missing endpoint is never only warned about. */
  predicate NotesReflect(h: EKS, kcfg: RestConfig, h': EKS, notes: seq<Note>) {
    && (h.clusterAPIServerEndpoint == "" <==> Filled(Endpoint, h'.clusterAPIServerEndpoint) in notes)
    && (h.clusterCADecoded == "" <==> Filled(CA, h'.clusterCADecoded) in notes)
    && (kcfg.authProvider.Some? && h.region == "" <==> Filled(Region, h'.region) in notes)
    && (kcfg.authProvider.Some? && h.clusterName == "" <==> Filled(ClusterName, h'.clusterName) in notes)
    && (h'.clusterCADecoded == "" <==> Missing(CA) in notes)
    && (h'.region == "" <==> Missing(Region) in notes)
    && (h'.clusterName == "" <==> Missing(ClusterName) in notes)
    && Missing(Endpoint) !in notes
  }

  /** No non-empty hint is ever overwritten. */
  predicate Keeps(h: EKS, h': EKS) {
    && (h.region != "" ==> h'.region == h.region)
    && (h.clusterName != "" ==> h'.clusterName == h.clusterName)
    && (h.clusterAPIServerEndpoint != "" ==> h'.clusterAPIServerEndpoint == h.clusterAPIServerEndpoint)
    && (h.clusterCADecoded != "" ==> h'.clusterCADecoded == h.clusterCADecoded)
  }

  /** Every empty hint the config can answer is taken from the config. */
  predicate Fills(h: EKS, kcfg: RestConfig, h': EKS) {
    && (h.clusterAPIServerEndpoint == "" ==> h'.clusterAPIServerEndpoint == kcfg.host)
    && (h.clusterCADecoded == "" ==> h'.clusterCADecoded == kcfg.caData)
    && (kcfg.authProvider.Some? && h.region == "" ==>
          h'.region == Lookup(kcfg.authProvider.value.config, Auth.RegionKey))
    && (kcfg.authProvider.Some? && h.clusterName == "" ==>
          h'.clusterName == Lookup(kcfg.authProvider.value.config, Auth.ClusterNameKey))
  }

  /** A conflict note is a real disagreement: the caller's non-empty hint
      for that field against a different resolved value, and for region and
      cluster name only when the config names a provider. */
  predicate GenuineConflict(h: EKS, kcfg: RestConfig, x: Note)
    requires x.Conflict?
  {
    && x.hint != "" && x.hint != x.resolved
    && match x.field
       case Endpoint => x.hint == h.clusterAPIServerEndpoint && x.resolved == kcfg.host
       case CA => x.hint == h.clusterCADecoded && x.resolved == kcfg.caData
       case Region =>
         kcfg.authProvider.Some? && x.hint == h.region
         && x.resolved == Lookup(kcfg.authProvider.value.config, Auth.RegionKey)
       case ClusterName =>
         kcfg.authProvider.Some? && x.hint == h.clusterName
         && x.resolved == Lookup(kcfg.authProvider.value.config, Auth.ClusterNameKey)
  }

  /** A disagreement between the kept hint and the resolved config is never
      silent: it is always logged as a conflict, with both values. */
  lemma DisagreementsAreWarned(h: EKS, kcfg: RestConfig)
    requires Reconcile(h, kcfg).Success?
    ensures var (h', notes) := Reconcile(h, kcfg).value;
            && (h'.clusterAPIServerEndpoint != kcfg.host ==>
                  Conflict(Endpoint, h'.clusterAPIServerEndpoint, kcfg.host) in notes)
            && (h'.clusterCADecoded != kcfg.caData ==>
                  Conflict(CA, h'.clusterCADecoded, kcfg.caData) in notes)
            && (kcfg.authProvider.Some? ==>
                  var region := Lookup(kcfg.authProvider.value.config, Auth.RegionKey);
                  h'.region != region ==> Conflict(Region, h'.region, region) in notes)
            && (kcfg.authProvider.Some? ==>
                  var name := Lookup(kcfg.authProvider.value.config, Auth.ClusterNameKey);
                  h'.clusterName != name ==> Conflict(ClusterName, h'.clusterName, name) in notes)
  {
  }

  /** The converse: every conflict logged is a real disagreement, so no
      warning is raised for agreeing values, and none for region or cluster
      name when the config names no provider. */
  lemma ConflictsAreGenuine(h: EKS, kcfg: RestConfig)
    requires Reconcile(h, kcfg).Success?
    ensures forall x :: x in Reconcile(h, kcfg).value.1 && x.Conflict? ==> GenuineConflict(h, kcfg, x)
  {
    var (endpoint, n1) := ReconcileField(Endpoint, h.clusterAPIServerEndpoint, kcfg.host);
    var (ca, n2) := ReconcileField(CA, h.clusterCADecoded, kcfg.caData);
    var (region, n4) := ProviderField(Region, h.region, kcfg.authProvider, Auth.RegionKey);
    var (name, n5) := ProviderField(ClusterName, h.clusterName, kcfg.authProvider, Auth.ClusterNameKey);
    FieldConflictsGenuine(h, kcfg, Endpoint, h.clusterAPIServerEndpoint, kcfg.host, n1);
    FieldConflictsGenuine(h, kcfg, CA, h.clusterCADecoded, kcfg.caData, n2);
    if kcfg.authProvider.Some? {
      FieldConflictsGenuine(h, kcfg, Region, h.region, Lookup(kcfg.authProvider.value.config, Auth.RegionKey), n4);
      FieldConflictsGenuine(h, kcfg, ClusterName, h.clusterName, Lookup(kcfg.authProvider.value.config, Auth.ClusterNameKey), n5);
    }
    ConflictsOfParts(h, kcfg, n1, n2, MissingNote(CA, ca), n4, n5, MissingNote(Region, region), MissingNote(ClusterName, name));
  }

  /** One field's notes: a conflict note there carries the field's own hint
      and resolved value, which differ. */
  lemma FieldConflictsGenuine(h: EKS, kcfg: RestConfig, field: Field, hint: string, resolved: string, notes: seq<Note>)
    requires notes == ReconcileField(field, hint, resolved).1
    requires field == Endpoint ==> hint == h.clusterAPIServerEndpoint && resolved == kcfg.host
    requires field == CA ==> hint == h.clusterCADecoded && resolved == kcfg.caData
    requires field == Region ==> kcfg.authProvider.Some? && hint == h.region
                                 && resolved == Lookup(kcfg.authProvider.value.config, Auth.RegionKey)
    requires field == ClusterName ==> kcfg.authProvider.Some? && hint == h.clusterName
                                      && resolved == Lookup(kcfg.authProvider.value.config, Auth.ClusterNameKey)
    ensures forall x :: x in notes && x.Conflict? ==> GenuineConflict(h, kcfg, x)
  {
  }

  lemma ConflictsOfParts(h: EKS, kcfg: RestConfig, n1: seq<Note>, n2: seq<Note>, n3: seq<Note>,
                         n4: seq<Note>, n5: seq<Note>, n6: seq<Note>, n7: seq<Note>)
    requires forall x :: x in n1 && x.Conflict? ==> GenuineConflict(h, kcfg, x)
    requires forall x :: x in n2 && x.Conflict? ==> GenuineConflict(h, kcfg, x)
    requires forall x :: x in n3 ==> x.Missing?
    requires forall x :: x in n4 && x.Conflict? ==> GenuineConflict(h, kcfg, x)
    requires forall x :: x in n5 && x.Conflict? ==> GenuineConflict(h, kcfg, x)
    requires forall x :: x in n6 ==> x.Missing?
    requires forall x :: x in n7 ==> x.Missing?
    ensures forall x :: x in n1 + n2 + n3 + n4 + n5 + n6 + n7 && x.Conflict? ==> GenuineConflict(h, kcfg, x)
  {
  }

  lemma NotesReflectFields(h: EKS, kcfg: RestConfig)
    requires Reconcile(h, kcfg).Success?
    ensures NotesReflect(h, kcfg, Reconcile(h, kcfg).value.0, Reconcile(h, kcfg).value.1)
  {
    var (endpoint, n1) := ReconcileField(Endpoint, h.clusterAPIServerEndpoint, kcfg.host);
    var (ca, n2) := ReconcileField(CA, h.clusterCADecoded, kcfg.caData);
    var (region, n4) := ProviderField(Region, h.region, kcfg.authProvider, Auth.RegionKey);
    var (name, n5) := ProviderField(ClusterName, h.clusterName, kcfg.authProvider, Auth.ClusterNameKey);
    NotesOfParts(h, kcfg, endpoint, ca, region, name, n1, n2, n4, n5);
  }

  lemma NotesOfParts(h: EKS, kcfg: RestConfig, endpoint: string, ca: string, region: string, name: string,
                     n1: seq<Note>, n2: seq<Note>, n4: seq<Note>, n5: seq<Note>)
    requires h.clusterAPIServerEndpoint == "" <==> Filled(Endpoint, endpoint) in n1
    requires h.clusterCADecoded == "" <==> Filled(CA, ca) in n2
    requires kcfg.authProvider.Some? && h.region == "" <==> Filled(Region, region) in n4
    requires kcfg.authProvider.Some? && h.clusterName == "" <==> Filled(ClusterName, name) in n5
    requires forall x :: x in n1 ==> !x.Missing? && x.field == Endpoint
    requires forall x :: x in n2 ==> !x.Missing? && x.field == CA
    requires forall x :: x in n4 ==> !x.Missing? && x.field == Region
    requires forall x :: x in n5 ==> !x.Missing? && x.field == ClusterName
    ensures NotesReflect(h, kcfg, EKS(region, name, endpoint, ca),
                         n1 + n2 + MissingNote(CA, ca) + n4 + n5 + MissingNote(Region, region) + MissingNote(ClusterName, name))
  {
    var n3, n6, n7 := MissingNote(CA, ca), MissingNote(Region, region), MissingNote(ClusterName, name);
    var notes := n1 + n2 + n3 + n4 + n5 + n6 + n7;
    assert Filled(Endpoint, endpoint) in notes <==> Filled(Endpoint, endpoint) in n1;
    assert Filled(CA, ca) in notes <==> Filled(CA, ca) in n2;
    assert Filled(Region, region) in notes <==> Filled(Region, region) in n4;
    assert Filled(ClusterName, name) in notes <==> Filled(ClusterName, name) in n5;
    assert Missing(CA) in notes <==> Missing(CA) in n3;
    assert Missing(Region) in notes <==> Missing(Region) in n6;
    assert Missing(ClusterName) in notes <==> Missing(ClusterName) in n7;
  }

  /** Reconciling the reconciled hint against the same config changes it no
      further. */
  lemma ReconcileIdempotent(h: EKS, kcfg: RestConfig)
    requires Reconcile(h, kcfg).Success?
    ensures Reconcile(Reconcile(h, kcfg).value.0, kcfg).Success?
    ensures Reconcile(Reconcile(h, kcfg).value.0, kcfg).value.0 == Reconcile(h, kcfg).value.0
  {
  }

  /** The caller's overrides, each applied only when positive; nothing else
      in the config changes. */
  function ApplyOverrides(cfg: Config, kcfg: RestConfig): (r: RestConfig)
    ensures r.host == kcfg.host && r.caData == kcfg.caData && r.authProvider == kcfg.authProvider
    ensures r.qps == (if cfg.clientQPS > 0.0 then cfg.clientQPS else kcfg.qps)
    ensures r.burst == (if cfg.clientBurst > 0 then cfg.clientBurst else kcfg.burst)
    ensures r.timeout == (if cfg.clientTimeout > 0 then cfg.clientTimeout else kcfg.timeout)
  {
    var k1 := if cfg.clientQPS > 0.0 then kcfg.(qps := cfg.clientQPS) else kcfg;
    var k2 := if cfg.clientBurst > 0 then k1.(burst := cfg.clientBurst) else k1;
    if cfg.clientTimeout > 0 then k2.(timeout := cfg.clientTimeout) else k2
  }

  /** Applying the overrides twice is applying them once. */
  lemma ApplyOverridesIdempotent(cfg: Config, kcfg: RestConfig)
    ensures ApplyOverrides(cfg, ApplyOverrides(cfg, kcfg)) == ApplyOverrides(cfg, kcfg)
  {
  }

  /** What a successful resolution yields: the config to build clients
      from, the caller's `Config` with its updated hint, and the notes. */
  datatype Resolved = Resolved(kcfg: RestConfig, cfg: Config, notes: seq<Note>)

  /** `createRestConfig`. */
  function CreateRestConfig(cfg: Config, env: Environment): (r: Result<Resolved, ConfigError>)
    ensures BaseConfig(cfg, env).None? ==> r == Failure(NoConfig)
    ensures r.Failure? ==> r.error == NoConfig || r.error == EmptyClusterAPIServerEndpoint
    ensures r.Success? ==> r.value.cfg == cfg.(eks := r.value.cfg.eks)
    ensures r.Success? ==> (r.value.cfg.eks.Some? <==> cfg.eks.Some?)
    ensures cfg.eks.None? && r.Success? ==> r.value.notes == []
    ensures r.Success? ==> BaseConfig(cfg, env).Some?
                           && r.value.kcfg == ApplyOverrides(cfg, BaseConfig(cfg, env).value)
    ensures r.Success? && cfg.eks.Some? ==>
              && r.value.cfg.eks.value.clusterAPIServerEndpoint != ""
              && Keeps(cfg.eks.value, r.value.cfg.eks.value)
              && Fills(cfg.eks.value, BaseConfig(cfg, env).value, r.value.cfg.eks.value)
  {
    var base := BaseConfig(cfg, env);
    if base.None? then Failure(NoConfig)
    else
      match cfg.eks
      case None => Success(Resolved(ApplyOverrides(cfg, base.value), cfg, []))
      case Some(h) =>
        var (h', notes) :- Reconcile(h, base.value);
        Success(Resolved(ApplyOverrides(cfg, base.value), cfg.(eks := Some(h')), notes))
  }

  /** Resolution fails with "failed to create config" exactly when every
      strategy fails. */
  lemma AllStrategiesFailIff(cfg: Config, env: Environment)
    ensures CreateRestConfig(cfg, env) == Failure(NoConfig)
            <==> forall i :: 0 <= i < |Candidates(cfg, env)| ==> Candidates(cfg, env)[i].None?
  {
    BaseConfigIsFirstSuccess(cfg, env);
  }

  /** A resolved config is the first successful strategy's, with the
      overrides on top; with a hint it fails only when no endpoint is known. */
  lemma ResolvedFromFirstSuccess(cfg: Config, env: Environment)
    requires FirstSome(Candidates(cfg, env)).Some?
    ensures var base := FirstSome(Candidates(cfg, env)).value;
            && (CreateRestConfig(cfg, env).Success? ==>
                  CreateRestConfig(cfg, env).value.kcfg == ApplyOverrides(cfg, base))
            && (CreateRestConfig(cfg, env).Failure? <==>
                  cfg.eks.Some? && cfg.eks.value.clusterAPIServerEndpoint == "" && base.host == "")
            && (cfg.eks.Some? && CreateRestConfig(cfg, env).Success? ==>
                  && Reconcile(cfg.eks.value, base).Success?
                  && CreateRestConfig(cfg, env).value.cfg.eks == Some(Reconcile(cfg.eks.value, base).value.0)
                  && CreateRestConfig(cfg, env).value.notes == Reconcile(cfg.eks.value, base).value.1
                  && NotesReflect(cfg.eks.value, base, Reconcile(cfg.eks.value, base).value.0,
                                  CreateRestConfig(cfg, env).value.notes)
                  && (forall x :: x in CreateRestConfig(cfg, env).value.notes && x.Conflict? ==>
                                   GenuineConflict(cfg.eks.value, base, x)))
  {
    BaseConfigIsFirstSuccess(cfg, env);
    if cfg.eks.Some? && CreateRestConfig(cfg, env).Success? {
      NotesReflectFields(cfg.eks.value, FirstSome(Candidates(cfg, env)).value);
      ConflictsAreGenuine(cfg.eks.value, FirstSome(Candidates(cfg, env)).value);
    }
  }

  /** With an empty kubeconfig path the kubeconfig loaders are never
      consulted: resolution does not depend on them. */
  lemma EmptyPathSkipsLoaders(cfg: Config, env: Environment, env': Environment)
    requires cfg.kubeconfigPath == ""
    requires env.inCluster == env'.inCluster && env.defaults == env'.defaults
    ensures CreateRestConfig(cfg, env) == CreateRestConfig(cfg, env')
  {
  }

  /** When the EKS hint is the strategy that wins, reconciliation changes
      nothing and logs nothing: the hint was complete and copied verbatim. */
  lemma EKSWinsReconcileNoOp(cfg: Config, env: Environment)
    requires FromKubeconfig(cfg, env).Failure?
    requires cfg.eks.Some? && FromEKS(cfg.eks).Success?
    ensures CreateRestConfig(cfg, env).Success?
    ensures var res := CreateRestConfig(cfg, env).value;
            && res.cfg == cfg
            && res.notes == []
            && res.kcfg.host == cfg.eks.value.clusterAPIServerEndpoint
            && res.kcfg.caData == cfg.eks.value.clusterCADecoded
  {
    var h := cfg.eks.value;
    var kcfg := FromEKS(cfg.eks).value;
    assert BaseConfig(cfg, env) == Some(kcfg);
    assert Lookup(kcfg.authProvider.value.config, Auth.RegionKey) == h.region;
    assert Lookup(kcfg.authProvider.value.config, Auth.ClusterNameKey) == h.clusterName;
    assert ReconcileField(Endpoint, h.clusterAPIServerEndpoint, kcfg.host) == (h.clusterAPIServerEndpoint, []);
    assert ReconcileField(CA, h.clusterCADecoded, kcfg.caData) == (h.clusterCADecoded, []);
    assert ReconcileField(Region, h.region, h.region) == (h.region, []);
    assert ReconcileField(ClusterName, h.clusterName, h.clusterName) == (h.clusterName, []);
    assert MissingNote(CA, h.clusterCADecoded) == [];
    assert MissingNote(Region, h.region) == [];
    assert MissingNote(ClusterName, h.clusterName) == [];
    var notes := [] + [] + MissingNote(CA, h.clusterCADecoded) + [] + []
                 + MissingNote(Region, h.region) + MissingNote(ClusterName, h.clusterName);
    assert notes == [];
    assert Reconcile(h, kcfg).Success?;
    assert Reconcile(h, kcfg).value.0 == h;
    assert Reconcile(h, kcfg).value.1 == notes;
  }

  /** The provider the EKS strategy names can always be built, and its token
      source is bound to the hint's region and cluster. */
  lemma EKSProviderAccepted(eks: Option<EKS>)
    requires FromEKS(eks).Success?
    ensures var p := FromEKS(eks).value.authProvider.value;
            Auth.NewAuthProviderEKS(p.config)
            == Success(Auth.EksAuthProvider(Auth.TokenSource(eks.value.region, eks.value.clusterName)))
  {
  }

  /** The resolved host need not be non-empty: a kept endpoint hint hides an
      empty host, and without a hint nothing is checked at all. */
  lemma HostMayBeEmpty(cfg: Config, env: Environment, kcfg: RestConfig)
    requires kcfg.host == "" && cfg.kubeconfigPath == "" && env.inCluster == Some(kcfg)
    requires cfg.eks.None? || (cfg.eks.value.clusterAPIServerEndpoint != "" && !Complete(cfg.eks.value))
    ensures CreateRestConfig(cfg, env).Success?
    ensures CreateRestConfig(cfg, env).value.kcfg.host == ""
  {
  }
}

=== FILE: retry.dfy ===
/** The retry engine: `Allow`/`Retry` options and the per-attempt decision
    `RetryFunction` hands to the exponential-backoff driver. */
module Retry {
  import opened Wrappers
  import opened Errors

  /** A caller-supplied predicate over errors. */
  type ErrorPredicate = Error -> bool

  /** `ApiCallOptions`: either field may be absent (a nil func). */
  datatype ApiCallOptions = ApiCallOptions(
    shouldAllowError: Option<ErrorPredicate>,
    shouldRetryError: Option<ErrorPredicate>)

  /** What a `wait.ConditionFunc` returns: `(done, err)`. */
  datatype Decision = Decision(done: bool, err: Option<Error>)

  /** The fixed backoff schedule: `Duration`, `Factor`, `Jitter`, `Steps`.
      Durations are in nanoseconds, as Go's `time.Duration`. */
  datatype Backoff = Backoff(durationNanos: int, factor: int, jitter: int, steps: int) {
    /** A usable schedule: positive first delay, growing, at least one step. */
    predicate Valid() {
      durationNanos > 0 && factor > 1 && jitter >= 0 && steps >= 1
    }
  }

  /** 100ms initial delay, factor 3, no jitter, 6 steps. */
  const RetryBackoff: Backoff := Backoff(100 * 1_000_000, 3, 0, 6)

  lemma RetryBackoffValid()
    ensures RetryBackoff.Valid()
  {
  }

  /** `Allow`: an option that only allows (ignores) matching errors. */
  function Allow(allowErrorPredicate: Option<ErrorPredicate>): (o: ApiCallOptions)
    ensures o.shouldAllowError == allowErrorPredicate && o.shouldRetryError.None?
  {
    ApiCallOptions(allowErrorPredicate, None)
  }

  /** `Retry`: an option that only retries matching errors. */
  function Retry(retryErrorPredicate: Option<ErrorPredicate>): (o: ApiCallOptions)
    ensures o.shouldRetryError == retryErrorPredicate && o.shouldAllowError.None?
  {
    ApiCallOptions(None, retryErrorPredicate)
  }

  /** Some option allows `err`: the reference reading of the allow list. */
  ghost predicate AllowedBy(options: seq<ApiCallOptions>, err: Error) {
    exists i :: 0 <= i < |options| && options[i].shouldAllowError.Some?
                && options[i].shouldAllowError.value(err)
  }

  /** Some option asks for `err` to be retried. */
  ghost predicate RetriedBy(options: seq<ApiCallOptions>, err: Error) {
    exists i :: 0 <= i < |options| && options[i].shouldRetryError.Some?
                && options[i].shouldRetryError.value(err)
  }

  /** The non-nil allow predicates, in option order. */
  function AllowPredicates(options: seq<ApiCallOptions>): (preds: seq<ErrorPredicate>)
    ensures |preds| <= |options|
  {
    if |options| == 0 then []
    else
      var rest := AllowPredicates(options[1..]);
      match options[0].shouldAllowError
      case Some(p) => [p] + rest
      case None => rest
  }

  /** The non-nil retry predicates, in option order. */
  function RetryPredicates(options: seq<ApiCallOptions>): (preds: seq<ErrorPredicate>)
    ensures |preds| <= |options|
  {
    if |options| == 0 then []
    else
      var rest := RetryPredicates(options[1..]);
      match options[0].shouldRetryError
      case Some(p) => [p] + rest
      case None => rest
  }

  /** The `for ... range` scan: does any predicate match `err`? */
  function AnyMatch(preds: seq<ErrorPredicate>, err: Error): (r: bool)
    ensures r <==> exists i :: 0 <= i < |preds| && preds[i](err)
  {
    if |preds| == 0 then false
    else if preds[0](err) then true
    else
      assert forall i :: 1 <= i < |preds| ==> preds[i] == preds[1..][i - 1];
      AnyMatch(preds[1..], err)
  }

  lemma {:induction false} AllowPredicatesSound(options: seq<ApiCallOptions>, err: Error)
    ensures AnyMatch(AllowPredicates(options), err) <==> AllowedBy(options, err)
    decreases |options|
  {
    if |options| > 0 {
      AllowPredicatesSound(options[1..], err);
      assert forall i :: 1 <= i < |options| ==> options[i] == options[1..][i - 1];
      if AllowedBy(options[1..], err) {
        var i :| 0 <= i < |options[1..]| && options[1..][i].shouldAllowError.Some?
                 && options[1..][i].shouldAllowError.value(err);
        assert options[i + 1] == options[1..][i];
      }
    }
  }

  lemma {:induction false} RetryPredicatesSound(options: seq<ApiCallOptions>, err: Error)
    ensures AnyMatch(RetryPredicates(options), err) <==> RetriedBy(options, err)
    decreases |options|
  {
    if |options| > 0 {
      RetryPredicatesSound(options[1..], err);
      assert forall i :: 1 <= i < |options| ==> options[i] == options[1..][i - 1];
      if RetriedBy(options[1..], err) {
        var i :| 0 <= i < |options[1..]| && options[1..][i].shouldRetryError.Some?
                 && options[1..][i].shouldRetryError.value(err);
        assert options[i + 1] == options[1..][i];
      }
    }
  }

  /** The decision for one attempt whose outcome is `result` (None = nil),
      given the allow and retry predicates in scan order. An error is
      reported only when it is terminal, and only the attempt's own error;
      "done" means success or an allowed, non-transient error; "back off"
      means a transient or retried error. */
  function Decide(result: Option<Error>, allow: seq<ErrorPredicate>, retry: seq<ErrorPredicate>): (d: Decision)
    ensures result.None? ==> d == Decision(true, None)
    ensures d.err.Some? ==> !d.done && d.err == result
    ensures d.done <==> result.None?
                        || (!IsBuiltinRetryable(result.value) && exists i :: 0 <= i < |allow| && allow[i](result.value))
    ensures !d.done && d.err.None? <==>
              && result.Some?
              && (|| IsBuiltinRetryable(result.value)
                  || ((forall i :: 0 <= i < |allow| ==> !allow[i](result.value))
                      && exists i :: 0 <= i < |retry| && retry[i](result.value)))
  {
    match result
    case None => Decision(true, None)
    case Some(err) =>
      if IsRetryableAPIError(err) || IsRetryableNetError(err) then Decision(false, None)
      else if AnyMatch(allow, err) then Decision(true, None)
      else if AnyMatch(retry, err) then Decision(false, None)
      else Decision(false, Some(err))
  }

  /** `RetryFunction`: wraps `f` into a condition for the backoff driver.
      The decision follows a fixed priority: success; built-in transient
      error; allowed error (discarded); retried error; terminal error,
      returned unchanged. */
  function RetryFunction(f: () -> Option<Error>, options: seq<ApiCallOptions>): (cond: () -> Decision)
    ensures f().None? ==> cond() == Decision(true, None)
    ensures f().Some? && IsBuiltinRetryable(f().value) ==> cond() == Decision(false, None)
    ensures f().Some? && !IsBuiltinRetryable(f().value) && AllowedBy(options, f().value)
            ==> cond() == Decision(true, None)
    ensures f().Some? && !IsBuiltinRetryable(f().value) && !AllowedBy(options, f().value)
            && RetriedBy(options, f().value)
            ==> cond() == Decision(false, None)
    ensures f().Some? && !IsBuiltinRetryable(f().value) && !AllowedBy(options, f().value)
            && !RetriedBy(options, f().value)
            ==> cond() == Decision(false, f())
  {
    var allow := AllowPredicates(options);
    var retry := RetryPredicates(options);
    if f().Some? then
      AllowPredicatesSound(options, f().value);
      RetryPredicatesSound(options, f().value);
      () => Decide(f(), allow, retry)
    else
      () => Decide(f(), allow, retry)
  }

  /** A terminal decision always carries the attempt's own error, and an
      error is reported only when the attempt is not done. */
  lemma DecisionShape(f: () -> Option<Error>, options: seq<ApiCallOptions>)
    ensures var d := RetryFunction(f, options)();
            (d.err.Some? ==> d.err == f() && !d.done)
            && (f().None? ==> d.done)
  {
  }

  /** Options whose predicates are nil (`Allow(nil)`, `Retry(nil)`)
      contribute nothing, wherever they sit in the list. */
  lemma {:induction false} NilOptionsInert(f: () -> Option<Error>, before: seq<ApiCallOptions>, after: seq<ApiCallOptions>)
    ensures RetryFunction(f, before + [ApiCallOptions(None, None)] + after)()
            == RetryFunction(f, before + after)()
  {
    var withNil := before + [ApiCallOptions(None, None)] + after;
    var without := before + after;
    if f().Some? {
      var err := f().value;
      if AllowedBy(withNil, err) {
        var i :| 0 <= i < |withNil| && withNil[i].shouldAllowError.Some? && withNil[i].shouldAllowError.value(err);
        if i < |before| { assert without[i] == withNil[i]; }
        else { assert without[i - 1] == withNil[i]; }
      }
      if AllowedBy(without, err) {
        var i :| 0 <= i < |without| && without[i].shouldAllowError.Some? && without[i].shouldAllowError.value(err);
        if i < |before| { assert withNil[i] == without[i]; }
        else { assert withNil[i + 1] == without[i]; }
      }
      if RetriedBy(withNil, err) {
        var i :| 0 <= i < |withNil| && withNil[i].shouldRetryError.Some? && withNil[i].shouldRetryError.value(err);
        if i < |before| { assert without[i] == withNil[i]; }
        else { assert without[i - 1] == withNil[i]; }
      }
      if RetriedBy(without, err) {
        var i :| 0 <= i < |without| && without[i].shouldRetryError.Some? && without[i].shouldRetryError.value(err);
        if i < |before| { assert withNil[i] == without[i]; }
        else { assert withNil[i + 1] == without[i]; }
      }
    }
  }

  /** An allow predicate never rescues an error the built-in classifier
      already treats as transient: the attempt keeps backing off. */
  lemma BuiltinBeatsAllow(f: () -> Option<Error>, p: ErrorPredicate)
    requires f().Some? && IsBuiltinRetryable(f().value) && p(f().value)
    ensures RetryFunction(f, [Allow(Some(p))])() == Decision(false, None)
  {
  }

  /** An allow predicate matching a non-transient error on the first attempt
      reports success and discards the error. */
  lemma AllowDiscardsError(f: () -> Option<Error>, p: ErrorPredicate, rest: seq<ApiCallOptions>)
    requires f().Some? && !IsBuiltinRetryable(f().value) && p(f().value)
    ensures RetryFunction(f, [Allow(Some(p))] + rest)() == Decision(true, None)
  {
    assert ([Allow(Some(p))] + rest)[0] == Allow(Some(p));
  }
}

=== FILE: wrappers.dfy ===
/** Failure-compatible wrappers used across the model: `Option` stands for a
    Go pointer or interface that may be nil, `Result` for a `(value, error)`
    return pair. */
module Wrappers {

  datatype Option<+T> = None | Some(value: T) {
    predicate IsFailure() {
      None?
    }

    function PropagateFailure<U>(): Option<U>
      requires None?
    {
      None
    }

    function Extract(): T
      requires Some?
    {
      value
    }
  }

  datatype Result<+R, +E> = Success(value: R) | Failure(error: E) {
    predicate IsFailure() {
      Failure?
    }

    function PropagateFailure<U>(): Result<U, E>
      requires Failure?
    {
      Failure(error)
    }

    function Extract(): R
      requires Success?
    {
      value
    }

    /** Forgets the error, as the source does when it only tests `kcfg == nil`. */
    function ToOption(): (o: Option<R>)
      ensures o.Some? <==> Success?
      ensures o.Some? ==> o.value == value
    {
      match this
      case Success(v) => Some(v)
      case Failure(_) => None
    }
  }
}
